=== FILE: README.md ===
# gopherlastic request construction, in Dafny

This project models the request-construction layer of the gopherlastic Elasticsearch
client. It also models the small decisions the client makes once a response arrives.
The client holds only a target host. For each operation it builds an HTTP request
descriptor: a verb, the Host fields, a scheme, an opaque path or a plain path, a body
and a content length. It hands that descriptor to the transport once and decodes the
body it gets back. The operations are:

- get one document;
- put one document;
- multi-get several documents;
- describe an index or alias;
- search with a raw query body;
- search by keywords, where the body is assembled as text.

Each operation is a pure function. These pieces of the library come from Go's standard
packages and are parameters:

- the round trip (`http.Client.Do`, with the status and the body as read);
- URL parsing (inside `http.NewRequest`);
- `json.Marshal`, `json.Unmarshal`, and the streaming `json.NewDecoder(...).Decode` of
  the keyword search.

Other standard-library steps are modelled concretely:

- `fmt.Sprintf` becomes string concatenation, with `Strings.Decimal` for `%d`;
- `errors.New` becomes an `Error` value;
- the descriptor that `http.NewRequest` fills in becomes `Http.NewRequest`.

Each operation except the keyword search returns `Call(result, sent)`. Here `sent`
lists the requests that were handed to the transport, so a statement like "no request
is sent for a blank index name" can be proved. The keyword search returns Go's pair of
results and error as `SimpleSearchOutcome(results, err, sent)`, with the same `sent`.

The paths, URLs and bodies the client builds come with independent inverses:

- Document paths, search paths (and through them the raw-search target), index-description URLs and keyword-search bodies each
  have a parser, and round-trip lemmas prove that the parser recovers exactly what was
  built.
- The `docs` JSON value of a multi-get is read back in order.
- Go's `%d` rendering is read back by a decimal parser.
- The keyword-search URL has no parser of its own. `Searching.SimpleSearchUrlVersusSearchPath`
  relates it to the raw-search target, which equals it when a type is given.

The request builders and the operations that send requests are specified case by case
instead. Their contracts say when they fail and with which error, what is sent, and
that a success returns exactly what the decoder produced. `ClassifySearchResponse` is
specified in the same way.

Modules follow the source files:

- `Clients`: client.go
- `GetDocuments`: get-document.go
- `PutDocuments`: put-document.go
- `MultiGet`: mget-documents.go
- `IndexDescriptions`: index.go
- `Searching`: search.go

They rest on `Wrappers` (Go's `(T, error)` as `Result`), `Strings` (prefixes, splitting,
decimals), `Json` (untyped JSON values, byte strings) and `Http` (descriptors, the
request constructor, the shared send-and-decode step).

Places where one operation of the code departs from another of its operations, or
from the engine's multi-get API (field names and path). The model follows the code in
every case:

- The keyword search writes its URL inline as `http://<host>/<index>/<type>/_search`.
  So an empty type leaves an empty segment (`//_search`). The raw search uses the
  optional-type path. `Searching.SimpleSearchUrlVersusSearchPath` states both cases.
- The keyword search checks neither the HTTP status nor the decoded `error` field. It
  returns whatever decoded, next to the decoder's own error. Only the raw search turns
  an engine-reported error into a failure.
- The multi-get URL path is `_mget`, with no leading slash.
- The per-document members of the multi-get body are Go's default field names `Index`,
  `Type` and `Id`, because the struct has no JSON tags.
- The raw search body is wrapped so that Go cannot see its length. Its content length is
  left at 0 (unknown), and `Searching.BuildSearchRequest` states this.

## Model

| member | source | states |
|---|---|---|
| Clients.BuildDocIdPath | client.go:19-21 | The document path starts with `/<index>/`, holds the type right after it followed by `/`, ends with the id exactly as given, and is as long as index, type and id together plus 3, so it is exactly `/<index>/<type>/<id>` for every input |
| Clients.DocIdPathRoundTrip | client.go:19-21 | When index and type are single segments, the path reads back to exactly (index, type, id). This holds for any id, including ids with slashes, colons or percent signs, because nothing is decoded |
| Clients.DocIdPathInjectiveInId | client.go:19-21 | For a fixed index and type, equal paths mean equal ids |
| Clients.DocIdPathInjective | client.go:19-21 | Over single-segment indexes and types, equal paths mean equal (index, type, id) triples |
| GetDocuments.BuildGetDocumentHttpRequest | get-document.go:59-72 | Building never fails. The result uses GET and scheme http, both Host fields equal the client host, the opaque path is the document path, and there is no body |
| GetDocuments.GetRequestAddressesDocument | get-document.go:25-31 | A request made with NewGetDocumentRequest on a client made with NewClient carries the host unchanged in the Host fields, and its path ends with the id and, when index and type are single segments, reads back to the given index, type and id |
| GetDocuments.GetPathIndependentOfHost | get-document.go:63-70 | The request path is the same whichever host the client targets, so the host never enters the path |
| GetDocuments.GetDocument | get-document.go:33-57 | Exactly one request is sent. A transport error or a body that fails to unmarshal is returned as the error with no response. A response is returned exactly when both steps succeed |
| Http.Exchange | get-document.go:40-56 | Sends the request once. The status and any read error are ignored. It succeeds exactly when the transport and the decoder both do, and otherwise returns their error |
| PutDocuments.BuildPutDocumentHttpRequest | put-document.go:61-84 | Fails exactly when marshalling the document fails, with that error. Otherwise it uses PUT and scheme http, both Host fields equal the client host, the opaque path is the document path, the body is exactly the marshalled document, and the content length is its length |
| PutDocuments.PutRequestCarriesDocument | put-document.go:26-33 | A request made with NewPutDocumentRequest carries the encoder's output for that document as its body, and, when index and type are single segments, its path reads back to the given index, type and id |
| PutDocuments.PutDocument | put-document.go:35-59 | A marshal error is returned and nothing is sent. Otherwise one request is sent, and a transport error or an unmarshal error is returned with no response. A success is exactly the decoded response |
| MultiGet.MGetRequestJson | mget-documents.go:11-13 | The request's JSON value is an object with exactly one member, `docs`, holding an array with one item per requested reference |
| MultiGet.MGetRequestJsonRoundTrip | mget-documents.go:11-13 | The `docs` member of the request's JSON value lists exactly the requested references, in order |
| MultiGet.NewMGetDocumentsRequest | mget-documents.go:19-23 | The request keeps the given references in the given order under `docs` |
| MultiGet.BuildMGetDocumentHttpRequest | mget-documents.go:51-72 | Fails exactly when marshalling the request fails, with that error. Otherwise it uses POST and scheme http, both Host fields equal the client host, the path is `_mget`, the body is the marshalled request, and the content length is its length |
| MultiGet.MGetTargetIndependentOfDocuments | mget-documents.go:61-68 | On one client, two multi-get requests have the same verb, host and URL, whatever documents they ask for |
| MultiGet.MGetDocuments | mget-documents.go:25-49 | A marshal error is returned and nothing is sent. Otherwise one request is sent, and a transport error or an unmarshal error is returned with no response. A success is exactly the decoded response |
| IndexDescriptions.BuildGetIndexDescriptionUrl | index.go:95-101 | Fails exactly when the name is blank, with "Index or Alias name can not be blank". Otherwise the URL starts with `http://<host>/`, ends with `/<name>`, and is as long as host and name together plus 8 |
| IndexDescriptions.IndexUrlRoundTrip | index.go:100 | For a host without slashes, the URL reads back to exactly (host, name) |
| IndexDescriptions.BuildGetIndexDescriptionHttpRequest | index.go:85-93 | A blank name gives the blank-name error and no request. Otherwise the result fails exactly when URL parsing fails, with the parser's error, and a built request is a GET for the description URL, with its Host field taken from the parsed URL, no body and content length 0 |
| IndexDescriptions.GetIndexDescription | index.go:59-83 | A blank name gives the blank-name error with nothing sent. If the request cannot be built, nothing is sent. Otherwise one request is sent. A transport error is returned unchanged, and so is an unmarshal error. The result is a value exactly when the transport and the decoder both succeed, and it is then the decoded description |
| Searching.BuildSearchPath | search.go:166-174 | A non-empty type gives `//<host>/<index>/<type>/_search`. An empty type gives `//<host>/<index>/_search`, with no empty segment |
| Searching.SearchPathRoundTrip | search.go:166-174 | With single-segment host, index and type, the search path reads back to exactly (host, index, type), an empty type included |
| Searching.SearchTarget | search.go:157-158 | The raw-search target starts with `http://` and ends with `/_search` |
| Searching.SearchTargetRoundTrip | search.go:157-158 | The raw-search target is `http:` followed by the search path of the client's host and the request's index and type, and with single-segment host, index and type that path reads back to exactly those three |
| Searching.BuildSearchRequest | search.go:153-164 | Fails exactly when the target does not parse. Otherwise it is a POST to the parsed target with its Host field taken from that URL, the caller's body is passed through unchanged, and the content length is 0 (unknown) |
| Searching.ClassifySearchResponse | search.go:133-150 | A 400..599 status or a read error gives an error whose text is the body. A decode error is returned as is. A decoded non-empty `error` field gives an error with that text, whatever the status. Results are returned exactly when none of these holds, and then carry an empty `error` |
| Searching.Search | search.go:120-151 | An unbuildable request is never sent. Otherwise exactly one request is sent, and a transport error is returned. A success never comes from a 4xx/5xx status and never carries an engine error |
| Searching.SimpleSearchBody | search.go:90-102 | The body starts with `{ from: <skip>, ` and ends with the match clause for the keywords followed by ` }` |
| Searching.SimpleSearchBodyRoundTrip | search.go:90-102 | Reading the body back gives the skip. It gives a size exactly when the count is positive, and that size equals the count. It gives the keywords exactly as given, with match-all standing for empty keywords |
| Searching.MatchClauseRoundTrip | search.go:95-100 | Empty keywords give the match-all clause. Other keywords give the multi-match clause over title, description, displayUrl and metaKeywords with the keywords inserted verbatim. The keywords read back unchanged in both cases |
| Searching.SizeClauseRoundTrip | search.go:91-93 | The size clause reads back as the count when the count is positive, and as absent otherwise |
| Strings.DecimalRoundTrip | search.go:92 | Go's `%d` rendering of any integer, sign included, reads back to the same integer and ends exactly where the rendering ends |
| Searching.SimpleSearchUrlVersusSearchPath | search.go:104 | With a type, the keyword-search URL equals the raw-search target. With an empty type, it differs from that target: it starts with `http://<host>/<index>/`, ends in `//_search`, and is as long as host and index together plus 17, so it is exactly `http://<host>/<index>//_search` |
| Searching.BuildSimpleSearchRequest | search.go:104-106 | Fails exactly when the URL does not parse, with the parser's error. Otherwise it is a POST to the parsed URL with its Host field taken from that URL, carrying the keyword body with content type `application/json` and the body's length |
| Searching.SimpleSearch | search.go:88-118 | One request is sent when it can be built. The decoder is given the response stream, read error included. Its results and its error are returned side by side. The status and the engine `error` field are not consulted |

## Left out

- put-doc.go is a near-duplicate of put-document.go with a divergent `buildDocIdPath`. Only the put-document.go variant is modelled.
- The network round trip, reading the body, and closing it with `defer res.Body.Close()` are I/O. The model takes the transport's result (status, body, read error) as a parameter and does not model releasing the body.
- `encoding/json` is a foreign library. Marshal, Unmarshal and the streaming decoder are parameters that may fail, and which JSON fields decode into which struct field is not modelled.
- URL parsing and request serialisation inside `net/http` are not modelled: the wire form of an opaque path, of the `_mget` path, and of the request line. Only the descriptor fields are modelled.
- `Hit.Score`, `Hits.MaxScore`, the `interface{}` payloads and the settings and mapping structs in index.go:11-57 are left out. Scores are floats, and the other shapes are pure data holders. Payloads are modelled as untyped JSON values with integer numbers.
- Searching.SimpleSearch: the source logs errors with `fmt.Printf`, and after a failed post it dereferences a nil response, which panics. The model instead returns the post's error with no results.
- MultiGet.NewMGetDocumentsRequest: the document list is a sequence of references, so a nil `Documents` slice and nil elements cannot be expressed. Go marshals these as `"docs":null` and `null`. The model's JSON value is always an array of objects.
- Strings are byte strings: one char stands for one byte, and Go's `string`/`[]byte` conversions are the identity. UTF-8 encoding is not modelled. The `contentLength == |body|` clauses count chars as bytes on this basis.
- Whether the keyword-search body is valid JSON is not stated. It has unquoted keys and does not escape keywords, so it is modelled as text, and only which clauses it holds is proved.
- Http.NewRequest does not model Go's method validation or its removal of an empty port from the host.
- NewSearchRequest and NewSimpleSearchRequest only copy their arguments, and the datatype constructors `SearchRequest` and `SimpleSearchRequest` play their role. NewClient, NewGetDocumentRequest and NewPutDocumentRequest are modelled as functions and appear in `GetDocuments.GetRequestAddressesDocument` and `PutDocuments.PutRequestCarriesDocument`.

=== FILE: client.dfy ===
/** The client record and the document path every single-document operation addresses. */
module Clients {
  import opened Wrappers
  import opened Strings

  /** A client holds only the target host (`host` or `host:port`); it is read-only after construction. */
  datatype Client = Client(host: string)

  function NewClient(host: string): Client {
    Client(host)
  }

  /**
   * The path `/<index>/<type>/<id>`. The id is placed verbatim: slashes, colons and
   * percent signs inside it are neither decoded nor collapsed. The host takes no part.
   */
  function BuildDocIdPath(index: string, docType: string, id: string): (p: string)
    ensures |p| == |index| + |docType| + |id| + 3
    ensures p[0] == '/'
    ensures EndsWith(p, id)
    ensures StartsWith(p, "/" + index + "/")
    ensures p[|index| + 2..|index| + |docType| + 2] == docType && p[|index| + |docType| + 2] == '/'
  {
    var p := "/" + index + "/" + docType + "/" + id;
    assert p[|index| + 2..|index| + |docType| + 2] == docType;
    assert p[|p| - |id|..] == id;
    assert p[..|index| + 2] == "/" + index + "/";
    p
  }

  /** Reads a document path back into (index, type, id); the id is everything after the third slash. */
  function ParseDocIdPath(p: string): Option<(string, string, string)> {
    match StripPrefix(p, "/")
    case None => None
    case Some(rest) =>
      match SplitAtFirst(rest, '/')
      case None => None
      case Some((index, afterIndex)) =>
        match SplitAtFirst(afterIndex, '/')
        case None => None
        case Some((docType, id)) => Some((index, docType, id))
  }

  /** When index and type are single segments, the path determines the id, whatever characters it holds. */
  lemma DocIdPathRoundTrip(index: string, docType: string, id: string)
    requires '/' !in index && '/' !in docType
    ensures ParseDocIdPath(BuildDocIdPath(index, docType, id)) == Some((index, docType, id))
  {
    var p := BuildDocIdPath(index, docType, id);
    var rest := index + "/" + docType + "/" + id;
    assert p == "/" + rest;
    StripPrefixOfConcat("/", rest);
    assert rest == index + ['/'] + (docType + "/" + id);
    SplitAtFirstOfConcat(index, '/', docType + "/" + id);
    assert docType + "/" + id == docType + ['/'] + id;
    SplitAtFirstOfConcat(docType, '/', id);
  }

  /** For a fixed index and type, distinct ids give distinct paths. */
  lemma DocIdPathInjectiveInId(index: string, docType: string, id1: string, id2: string)
    requires BuildDocIdPath(index, docType, id1) == BuildDocIdPath(index, docType, id2)
    ensures id1 == id2
  {
    var p := BuildDocIdPath(index, docType, id1);
    assert |id1| == |id2|;
    assert id1 == p[|p| - |id1|..] == id2;
  }

  /** Over single-segment indexes and types, the whole (index, type, id) triple is determined by the path. */
  lemma DocIdPathInjective(a: (string, string, string), b: (string, string, string))
    requires '/' !in a.0 && '/' !in a.1 && '/' !in b.0 && '/' !in b.1
    requires BuildDocIdPath(a.0, a.1, a.2) == BuildDocIdPath(b.0, b.1, b.2)
    ensures a == b
  {
    DocIdPathRoundTrip(a.0, a.1, a.2);
    DocIdPathRoundTrip(b.0, b.1, b.2);
  }
}

=== FILE: get_document.dfy ===
/** Fetching one document by (index, type, id). */
module GetDocuments {
  import opened Wrappers
  import opened Strings
  import opened Json
  import opened Http
  import opened Clients

  datatype GetDocumentRequest = GetDocumentRequest(index: string, docType: string, id: string)

  /** The engine's answer; when `found` is false the source is absent and the version is not meaningful. */
  datatype GetDocumentResponse = GetDocumentResponse(
    index: string,
    docType: string,
    id: string,
    version: int,
    source: Option<JsonValue>,
    found: bool)

  function NewGetDocumentRequest(index: string, docType: string, id: string): GetDocumentRequest {
    GetDocumentRequest(index, docType, id)
  }

  /**
   * The hand-built GET request: the document path goes into the URL's opaque part so
   * that the id reaches the wire without being decoded. Building it cannot fail.
   */
  function BuildGetDocumentHttpRequest(c: Client, req: GetDocumentRequest): (r: Result<Request>)
    ensures r.Ok?
    ensures r.value.verb == "GET" && r.value.url.scheme == "http"
    ensures r.value.host == c.host && r.value.url.host == c.host
    ensures r.value.url.opaquePath == BuildDocIdPath(req.index, req.docType, req.id)
    ensures r.value.body.None? && r.value.contentLength == 0
  {
    Ok(Request(
      verb := "GET",
      host := c.host,
      url := Url(scheme := "http", host := c.host, opaquePath := BuildDocIdPath(req.index, req.docType, req.id), path := ""),
      body := None,
      contentLength := 0,
      contentType := None))
  }

  /**
   * A request made with NewGetDocumentRequest on a client made with NewClient
   * addresses exactly the document it names: the host reaches the request's Host
   * fields, never the path, and the path reads back to the given index, type and id.
   */
  lemma GetRequestAddressesDocument(host: string, index: string, docType: string, id: string)
    ensures var r := BuildGetDocumentHttpRequest(NewClient(host), NewGetDocumentRequest(index, docType, id)).value;
            && r.host == host && r.url.host == host
            && EndsWith(r.url.opaquePath, id)
            && ('/' !in index && '/' !in docType ==> ParseDocIdPath(r.url.opaquePath) == Some((index, docType, id)))
  {
    if '/' !in index && '/' !in docType {
      DocIdPathRoundTrip(index, docType, id);
    }
  }

  /** The request path does not depend on which host the client targets. */
  lemma GetPathIndependentOfHost(c1: Client, c2: Client, req: GetDocumentRequest)
    ensures BuildGetDocumentHttpRequest(c1, req).value.url.opaquePath
         == BuildGetDocumentHttpRequest(c2, req).value.url.opaquePath
  {
  }

  /**
   * One round trip. A transport error or a body that does not unmarshal is returned
   * as the error, with no response alongside it.
   */
  function GetDocument(c: Client, req: GetDocumentRequest, roundTrip: RoundTrip, decode: Decoder<GetDocumentResponse>)
    : (call: Call<GetDocumentResponse>)
    ensures var httpReq := BuildGetDocumentHttpRequest(c, req).value;
            && call.sent == [httpReq]
            && (roundTrip(httpReq).Err? ==> call.result == Err(roundTrip(httpReq).error))
            && (roundTrip(httpReq).Ok? && decode(roundTrip(httpReq).value.body).Err? ==>
                  call.result == Err(decode(roundTrip(httpReq).value.body).error))
            && (call.result.Ok? <==> roundTrip(httpReq).Ok? && decode(roundTrip(httpReq).value.body).Ok?)
            && (call.result.Ok? ==> call.result.value == decode(roundTrip(httpReq).value.body).value)
  {
    // Go checks the builder's error, but the builder never returns one.
    var httpReq := BuildGetDocumentHttpRequest(c, req).value;
    Exchange(httpReq, roundTrip, decode)
  }
}

=== FILE: http.dfy ===
/**
 * The parts of Go's net/http the client touches, reduced to request and response
 * descriptors. URL parsing, the network round trip and JSON decoding are parameters.
 */
module Http {
  import opened Wrappers
  import opened Json

  /** The fields of Go's `url.URL` that the client sets or that parsing produces. */
  datatype Url = Url(scheme: string, host: string, opaquePath: string, path: string)

  /**
   * The fields of Go's `http.Request` that the client sets (`verb` is its Method). `host` takes precedence
   * over `url.host` on the wire. A `contentLength` of 0 with a body means "unknown".
   */
  datatype Request = Request(
    verb: string,
    host: string,
    url: Url,
    body: Option<Bytes>,
    contentLength: int,
    contentType: Option<string>)

  /** What the transport hands back: the status code, the body as read, and the error of reading it, if any. */
  datatype Response = Response(status: int, body: Bytes, readError: Option<Error>)

  /** `url.Parse` as used inside `http.NewRequest`. */
  type UrlParser = string -> Result<Url>

  /** `http.Client.Do`: one blocking round trip, failing on connection or protocol errors. */
  type RoundTrip = Request -> Result<Response>

  /** `json.Unmarshal` into a value of type `T`. */
  type Decoder<T> = Bytes -> Result<T>

  /** The outcome of one client operation together with every request it handed to the transport. */
  datatype Call<T> = Call(result: Result<T>, sent: seq<Request>)

  /**
   * `http.NewRequest(verb, rawUrl, body)`: the URL is parsed and the request's host
   * taken from it. The length is known only when the body reader is one Go recognises.
   */
  function NewRequest(verb: string, rawUrl: string, body: Option<Bytes>, lengthKnown: bool, parseUrl: UrlParser)
    : (r: Result<Request>)
    ensures r.Err? <==> parseUrl(rawUrl).Err?
    ensures r.Err? ==> r.error == parseUrl(rawUrl).error
    ensures r.Ok? ==> r.value.verb == verb && r.value.url == parseUrl(rawUrl).value
                      && r.value.host == r.value.url.host && r.value.body == body
    ensures r.Ok? && lengthKnown && body.Some? ==> r.value.contentLength == |body.value|
    ensures r.Ok? && !(lengthKnown && body.Some?) ==> r.value.contentLength == 0
  {
    match parseUrl(rawUrl)
    case Err(e) => Err(e)
    case Ok(u) =>
      var length := if lengthKnown && body.Some? then |body.value| else 0;
      Ok(Request(verb, u.host, u, body, length, None))
  }

  /**
   * The common tail of the document operations: send the request once, read the
   * whole body and decode it. The status code and any error from reading the body
   * are not consulted; a body that does not decode is the operation's error.
   */
  function Exchange<T>(request: Request, roundTrip: RoundTrip, decode: Decoder<T>): (c: Call<T>)
    ensures c.sent == [request]
    ensures c.result.Ok? <==> roundTrip(request).Ok? && decode(roundTrip(request).value.body).Ok?
    ensures roundTrip(request).Err? ==> c.result == Err(roundTrip(request).error)
    ensures roundTrip(request).Ok? ==> c.result == decode(roundTrip(request).value.body)
  {
    match roundTrip(request)
    case Err(e) => Call(Err(e), [request])
    case Ok(response) => Call(decode(response.body), [request])
  }
}

=== FILE: index.dfy ===
/** Describing an index or alias: its aliases, mappings and settings. */
module IndexDescriptions {
  import opened Wrappers
  import opened Strings
  import opened Json
  import opened Http
  import opened Clients

  /** The error for an empty index-or-alias name. */
  const BlankNameMessage := "Index or Alias name can not be blank"

  /**
   * One index's description. Mappings and settings are open-ended engine structures
   * and stay untyped here; settings values arrive as strings even when numeric.
   */
  datatype IndexDescription = IndexDescription(
    aliases: map<string, JsonValue>,
    mappings: map<string, JsonValue>,
    settings: JsonValue)

  /** The response maps each concrete index name to its description. */
  type GetIndexDescriptionResponse = map<string, IndexDescription>

  /** `http://<host>/<name>`, refused for an empty name. */
  function BuildGetIndexDescriptionUrl(c: Client, indexOrAliasName: string): (r: Result<string>)
    ensures r.Err? <==> indexOrAliasName == ""
    ensures r.Err? ==> r.error == Error(BlankNameMessage)
    ensures r.Ok? ==> && StartsWith(r.value, "http://" + c.host + "/")
                      && EndsWith(r.value, "/" + indexOrAliasName)
                      && |r.value| == |c.host| + |indexOrAliasName| + 8
  {
    if indexOrAliasName == "" then Err(Error(BlankNameMessage))
    else
      var u := "http://" + c.host + "/" + indexOrAliasName;
      assert u[..|c.host| + 8] == "http://" + c.host + "/";
      assert u[|u| - |indexOrAliasName| - 1..] == "/" + indexOrAliasName;
      Ok(u)
  }

  /** Reads a description URL back into (host, name). */
  function ParseIndexUrl(u: string): Option<(string, string)> {
    match StripPrefix(u, "http://")
    case None => None
    case Some(rest) =>
      match SplitAtFirst(rest, '/')
      case None => None
      case Some((host, name)) => if name == "" then None else Some((host, name))
  }

  /** With a host free of slashes, the URL determines both the host and the name. */
  lemma IndexUrlRoundTrip(c: Client, indexOrAliasName: string)
    requires indexOrAliasName != "" && '/' !in c.host
    ensures ParseIndexUrl(BuildGetIndexDescriptionUrl(c, indexOrAliasName).value) == Some((c.host, indexOrAliasName))
  {
    var rest := c.host + "/" + indexOrAliasName;
    assert BuildGetIndexDescriptionUrl(c, indexOrAliasName).value == "http://" + rest;
    StripPrefixOfConcat("http://", rest);
    assert rest == c.host + ['/'] + indexOrAliasName;
    SplitAtFirstOfConcat(c.host, '/', indexOrAliasName);
  }

  /**
   * A GET request for the description URL. A blank name fails before any request
   * is made; otherwise the URL is parsed as `http.NewRequest` does.
   */
  function BuildGetIndexDescriptionHttpRequest(c: Client, indexOrAliasName: string, parseUrl: UrlParser)
    : (r: Result<Request>)
    ensures indexOrAliasName == "" ==> r == Err(Error(BlankNameMessage))
    ensures indexOrAliasName != "" ==>
              var u := BuildGetIndexDescriptionUrl(c, indexOrAliasName).value;
              && (r.Err? <==> parseUrl(u).Err?)
              && (r.Err? ==> r.error == parseUrl(u).error)
              && (r.Ok? ==> && r.value.verb == "GET" && r.value.url == parseUrl(u).value
                            && r.value.host == r.value.url.host
                            && r.value.body.None? && r.value.contentLength == 0)
  {
    match BuildGetIndexDescriptionUrl(c, indexOrAliasName)
    case Err(e) => Err(e)
    case Ok(requestUrl) => NewRequest("GET", requestUrl, None, false, parseUrl)
  }

  /**
   * Validate, send once, decode. A blank name is reported without any request
   * reaching the transport; a transport or decoding error is returned with no result.
   */
  function GetIndexDescription(c: Client, indexOrAliasName: string, parseUrl: UrlParser, roundTrip: RoundTrip,
                               decode: Decoder<GetIndexDescriptionResponse>)
    : (call: Call<GetIndexDescriptionResponse>)
    ensures indexOrAliasName == "" ==> call == Call(Err(Error(BlankNameMessage)), [])
    ensures BuildGetIndexDescriptionHttpRequest(c, indexOrAliasName, parseUrl).Err? ==>
              call.sent == [] && call.result == Err(BuildGetIndexDescriptionHttpRequest(c, indexOrAliasName, parseUrl).error)
    ensures BuildGetIndexDescriptionHttpRequest(c, indexOrAliasName, parseUrl).Ok? ==>
              var httpReq := BuildGetIndexDescriptionHttpRequest(c, indexOrAliasName, parseUrl).value;
              && call.sent == [httpReq]
              && (roundTrip(httpReq).Err? ==> call.result == Err(roundTrip(httpReq).error))
              && (roundTrip(httpReq).Ok? && decode(roundTrip(httpReq).value.body).Err? ==>
                    call.result == Err(decode(roundTrip(httpReq).value.body).error))
              && (call.result.Ok? <==> roundTrip(httpReq).Ok? && decode(roundTrip(httpReq).value.body).Ok?)
              && (call.result.Ok? ==> call.result.value == decode(roundTrip(httpReq).value.body).value)
  {
    match BuildGetIndexDescriptionHttpRequest(c, indexOrAliasName, parseUrl)
    case Err(e) => Call(Err(e), [])
    case Ok(httpReq) => Exchange(httpReq, roundTrip, decode)
  }
}

=== FILE: json.dfy ===
/** The JSON values the client builds or receives, and the shape of the encoding library it calls. */
module Json {
  import opened Wrappers

  /**
   * A Go byte slice. Each char of the model stands for one byte, so Go's
   * `string(b)` and `[]byte(s)` conversions are the identity here.
   */
  type Bytes = string

  /** An untyped JSON value; object members keep the order in which they are written. Numbers are integers here. */
  datatype JsonValue =
    | JNull
    | JBool(b: bool)
    | JNumber(n: int)
    | JString(s: string)
    | JArray(items: seq<JsonValue>)
    | JObject(members: seq<(string, JsonValue)>)

  /** `json.Marshal`: serialising may fail (unsupported values), and then yields only an error. */
  type Marshal = JsonValue -> Result<Bytes>

  /** The value of the first member named `key`, if any. */
  function Member(members: seq<(string, JsonValue)>, key: string): (r: Option<JsonValue>)
    ensures r.Some? ==> (key, r.value) in members
    ensures r.Some? ==> exists i :: 0 <= i < |members| && members[i] == (key, r.value)
                                    && forall j :: 0 <= j < i ==> members[j].0 != key
    ensures r.None? ==> forall i :: 0 <= i < |members| ==> members[i].0 != key
  {
    if |members| == 0 then None
    else if members[0].0 == key then Some(members[0].1)
    else Member(members[1..], key)
  }
}

=== FILE: mget_documents.dfy ===
/** Fetching several documents in one round trip. */
module MultiGet {
  import opened Wrappers
  import opened Json
  import opened Http
  import opened Clients
  import opened GetDocuments

  /** The documents to fetch, in order; serialised under the `docs` member. */
  datatype MGetDocumentsRequest = MGetDocumentsRequest(documents: seq<GetDocumentRequest>)

  /** One answer per requested document, in request order as the engine returns them. */
  datatype MGetDocumentsResponse = MGetDocumentsResponse(documents: seq<GetDocumentResponse>)

  /**
   * The JSON value `json.Marshal` is given for one document reference: the struct
   * has no tags, so the members are named after the Go fields.
   */
  function RefToJson(r: GetDocumentRequest): JsonValue {
    JObject([("Index", JString(r.index)), ("Type", JString(r.docType)), ("Id", JString(r.id))])
  }

  function RefsToJson(docs: seq<GetDocumentRequest>): (items: seq<JsonValue>)
    ensures |items| == |docs|
  {
    if |docs| == 0 then [] else [RefToJson(docs[0])] + RefsToJson(docs[1..])
  }

  /** The JSON value of a multi-get request: one `docs` member holding the references in order. */
  function MGetRequestJson(req: MGetDocumentsRequest): (j: JsonValue)
    ensures j.JObject? && |j.members| == 1 && j.members[0].0 == "docs"
    ensures j.members[0].1.JArray? && |j.members[0].1.items| == |req.documents|
  {
    JObject([("docs", JArray(RefsToJson(req.documents)))])
  }

  /** Reads one document reference back from its JSON object. */
  function RefFromJson(j: JsonValue): Option<GetDocumentRequest> {
    if !j.JObject? then None
    else
      match (Member(j.members, "Index"), Member(j.members, "Type"), Member(j.members, "Id"))
      case (Some(JString(index)), Some(JString(docType)), Some(JString(id))) =>
        Some(GetDocumentRequest(index, docType, id))
      case _ => None
  }

  function RefsFromJson(items: seq<JsonValue>): Option<seq<GetDocumentRequest>> {
    if |items| == 0 then Some([])
    else
      match (RefFromJson(items[0]), RefsFromJson(items[1..]))
      case (Some(r), Some(rs)) => Some([r] + rs)
      case _ => None
  }

  /** The document references listed under the `docs` member of a JSON object. */
  function DocsOf(j: JsonValue): Option<seq<GetDocumentRequest>> {
    if !j.JObject? then None
    else
      match Member(j.members, "docs")
      case Some(JArray(items)) => RefsFromJson(items)
      case _ => None
  }

  lemma RefRoundTrip(r: GetDocumentRequest)
    ensures RefFromJson(RefToJson(r)) == Some(r)
  {
    var m := RefToJson(r).members;
    assert Member(m, "Index") == Some(JString(r.index));
    assert m[1..][0].0 == "Type" && m[1..][1..][0].0 == "Id";
    assert "Type" != "Index" && "Id" != "Index" && "Id" != "Type";
    assert Member(m, "Type") == Member(m[1..], "Type") == Some(JString(r.docType));
    assert Member(m, "Id") == Member(m[1..][1..], "Id") == Some(JString(r.id));
  }

  lemma {:induction false} RefsRoundTrip(docs: seq<GetDocumentRequest>)
    ensures RefsFromJson(RefsToJson(docs)) == Some(docs)
    decreases |docs|
  {
    if |docs| > 0 {
      var items := RefsToJson(docs);
      assert items[0] == RefToJson(docs[0]);
      assert items[1..] == RefsToJson(docs[1..]);
      RefRoundTrip(docs[0]);
      RefsRoundTrip(docs[1..]);
      assert [docs[0]] + docs[1..] == docs;
    }
  }

  /** The `docs` member of a request's JSON value lists exactly its references, in order. */
  lemma MGetRequestJsonRoundTrip(req: MGetDocumentsRequest)
    ensures DocsOf(MGetRequestJson(req)) == Some(req.documents)
  {
    RefsRoundTrip(req.documents);
  }

  /** The request keeps the given references in the given order under `docs`. */
  function NewMGetDocumentsRequest(documentRequests: seq<GetDocumentRequest>): (r: MGetDocumentsRequest)
    ensures DocsOf(MGetRequestJson(r)) == Some(documentRequests)
  {
    var r := MGetDocumentsRequest(documentRequests);
    MGetRequestJsonRoundTrip(r);
    r
  }

  /**
   * The POST request: a fixed `_mget` path, whatever documents are asked for, and
   * the serialised request as body with its length. A serialisation error means no request.
   */
  function BuildMGetDocumentHttpRequest(c: Client, req: MGetDocumentsRequest, marshal: Marshal): (r: Result<Request>)
    ensures r.Err? <==> marshal(MGetRequestJson(req)).Err?
    ensures r.Err? ==> r.error == marshal(MGetRequestJson(req)).error
    ensures r.Ok? ==> && r.value.verb == "POST" && r.value.url.scheme == "http"
                      && r.value.host == c.host && r.value.url.host == c.host
                      && r.value.url.path == "_mget" && r.value.url.opaquePath == ""
    ensures r.Ok? ==> && r.value.body == Some(marshal(MGetRequestJson(req)).value)
                      && r.value.contentLength == |marshal(MGetRequestJson(req)).value|
  {
    match marshal(MGetRequestJson(req))
    case Err(e) => Err(e)
    case Ok(body) =>
      Ok(Request(
        verb := "POST",
        host := c.host,
        url := Url(scheme := "http", host := c.host, opaquePath := "", path := "_mget"),
        body := Some(body),
        contentLength := |body|,
        contentType := None))
  }

  /** Two multi-get requests on one client differ only in their bodies: the target is the same. */
  lemma MGetTargetIndependentOfDocuments(c: Client, a: MGetDocumentsRequest, b: MGetDocumentsRequest, marshal: Marshal)
    requires marshal(MGetRequestJson(a)).Ok? && marshal(MGetRequestJson(b)).Ok?
    ensures var ra := BuildMGetDocumentHttpRequest(c, a, marshal).value;
            var rb := BuildMGetDocumentHttpRequest(c, b, marshal).value;
            ra.verb == rb.verb && ra.host == rb.host && ra.url == rb.url
  {
  }

  /**
   * Serialise, send once, decode. A serialisation error stops the operation before
   * anything is sent; a transport or decoding error is returned with no response.
   */
  function MGetDocuments(c: Client, req: MGetDocumentsRequest, marshal: Marshal, roundTrip: RoundTrip,
                         decode: Decoder<MGetDocumentsResponse>)
    : (call: Call<MGetDocumentsResponse>)
    ensures marshal(MGetRequestJson(req)).Err? ==> call == Call(Err(marshal(MGetRequestJson(req)).error), [])
    ensures marshal(MGetRequestJson(req)).Ok? ==>
              var httpReq := BuildMGetDocumentHttpRequest(c, req, marshal).value;
              && call.sent == [httpReq]
              && (roundTrip(httpReq).Err? ==> call.result == Err(roundTrip(httpReq).error))
              && (roundTrip(httpReq).Ok? && decode(roundTrip(httpReq).value.body).Err? ==>
                    call.result == Err(decode(roundTrip(httpReq).value.body).error))
              && (call.result.Ok? <==> roundTrip(httpReq).Ok? && decode(roundTrip(httpReq).value.body).Ok?)
              && (call.result.Ok? ==> call.result.value == decode(roundTrip(httpReq).value.body).value)
  {
    match BuildMGetDocumentHttpRequest(c, req, marshal)
    case Err(e) => Call(Err(e), [])
    case Ok(httpReq) => Exchange(httpReq, roundTrip, decode)
  }
}

=== FILE: put_document.dfy ===
/** Writing (creating or overwriting) one document. */
module PutDocuments {
  import opened Wrappers
  import opened Strings
  import opened Json
  import opened Http
  import opened Clients

  datatype PutDocumentRequest = PutDocumentRequest(index: string, docType: string, id: string, doc: JsonValue)

  /** `created` is true when the write created the document rather than overwrote it. */
  datatype PutDocumentResponse = PutDocumentResponse(index: string, docType: string, id: string, version: int, created: bool)

  function NewPutDocumentRequest(index: string, docType: string, id: string, doc: JsonValue): PutDocumentRequest {
    PutDocumentRequest(index, docType, id, doc)
  }

  /**
   * The hand-built PUT request. The body is the serialised document with no envelope,
   * and its length is announced. If the document cannot be serialised no request exists.
   */
  function BuildPutDocumentHttpRequest(c: Client, req: PutDocumentRequest, marshal: Marshal): (r: Result<Request>)
    ensures r.Err? <==> marshal(req.doc).Err?
    ensures r.Err? ==> r.error == marshal(req.doc).error
    ensures r.Ok? ==> && r.value.verb == "PUT" && r.value.url.scheme == "http"
                      && r.value.host == c.host && r.value.url.host == c.host
                      && r.value.url.opaquePath == BuildDocIdPath(req.index, req.docType, req.id)
    ensures r.Ok? ==> && r.value.body == Some(marshal(req.doc).value)
                      && r.value.contentLength == |marshal(req.doc).value|
  {
    match marshal(req.doc)
    case Err(e) => Err(e)
    case Ok(body) =>
      Ok(Request(
        verb := "PUT",
        host := c.host,
        url := Url(scheme := "http", host := c.host, opaquePath := BuildDocIdPath(req.index, req.docType, req.id), path := ""),
        body := Some(body),
        contentLength := |body|,
        contentType := None))
  }

  /**
   * A request made with NewPutDocumentRequest carries its document and its address
   * unchanged: the body is what the encoder made of that very document, and the path
   * reads back to the given index, type and id.
   */
  lemma PutRequestCarriesDocument(c: Client, index: string, docType: string, id: string, doc: JsonValue, marshal: Marshal)
    requires marshal(doc).Ok?
    ensures var r := BuildPutDocumentHttpRequest(c, NewPutDocumentRequest(index, docType, id, doc), marshal);
            && r.Ok? && r.value.body == Some(marshal(doc).value)
            && EndsWith(r.value.url.opaquePath, id)
            && ('/' !in index && '/' !in docType ==> ParseDocIdPath(r.value.url.opaquePath) == Some((index, docType, id)))
  {
    if '/' !in index && '/' !in docType {
      DocIdPathRoundTrip(index, docType, id);
    }
  }

  /**
   * Serialise, send once, decode. A serialisation error stops the operation before
   * anything is sent; a transport or decoding error is returned with no response.
   */
  function PutDocument(c: Client, req: PutDocumentRequest, marshal: Marshal, roundTrip: RoundTrip,
                       decode: Decoder<PutDocumentResponse>)
    : (call: Call<PutDocumentResponse>)
    ensures marshal(req.doc).Err? ==> call == Call(Err(marshal(req.doc).error), [])
    ensures marshal(req.doc).Ok? ==>
              var httpReq := BuildPutDocumentHttpRequest(c, req, marshal).value;
              && call.sent == [httpReq]
              && (roundTrip(httpReq).Err? ==> call.result == Err(roundTrip(httpReq).error))
              && (roundTrip(httpReq).Ok? && decode(roundTrip(httpReq).value.body).Err? ==>
                    call.result == Err(decode(roundTrip(httpReq).value.body).error))
              && (call.result.Ok? <==> roundTrip(httpReq).Ok? && decode(roundTrip(httpReq).value.body).Ok?)
              && (call.result.Ok? ==> call.result.value == decode(roundTrip(httpReq).value.body).value)
  {
    match BuildPutDocumentHttpRequest(c, req, marshal)
    case Err(e) => Call(Err(e), [])
    case Ok(httpReq) => Exchange(httpReq, roundTrip, decode)
  }
}

=== FILE: search.dfy ===
/** Searching: a raw query body passed through, and a keyword search whose body is assembled as text. */
module Searching {
  import opened Wrappers
  import opened Strings
  import opened Json
  import opened Http
  import opened Clients

  /** Go's `int64`. */
  type Int64 = x: int | -0x8000_0000_0000_0000 <= x < 0x8000_0000_0000_0000

  /** A search with a caller-supplied query body; an empty type searches every type of the index. */
  datatype SearchRequest = SearchRequest(index: string, docType: string, body: string)

  /** A keyword search: `skip` hits are skipped, `count` above 0 limits the page, empty keywords match everything. */
  datatype SimpleSearchRequest = SimpleSearchRequest(skip: Int64, count: Int64, keywords: string, index: string, docType: string)

  datatype Shards = Shards(total: int, successful: int, failed: int)

  /** One hit; its relevance score is a float and is not modelled. */
  datatype Hit = Hit(id: string, index: string, source: JsonValue, fields: map<string, seq<JsonValue>>)

  datatype Hits = Hits(total: Int64, hits: seq<Hit>)

  /** A decoded search response; a non-empty `error` means the hits are not to be trusted. */
  datatype SearchResults = SearchResults(took: Int64, timedOut: bool, shards: Shards, hits: Hits, error: string)

  /**
   * `//<host>/<index>/<type>/_search`, or `//<host>/<index>/_search` when the type is
   * empty, so that an empty type leaves no empty segment behind.
   */
  function BuildSearchPath(host: string, index: string, docType: string): (p: string)
    ensures docType != "" ==> p == "//" + host + "/" + index + "/" + docType + "/_search"
    ensures docType == "" ==> p == "//" + host + "/" + index + "/_search"
  {
    var topicPart := if docType != "" then docType + "/" else "";
    "//" + host + "/" + index + "/" + topicPart + "_search"
  }

  /** Reads a search path back into (host, index, type), the type being empty when the segment is absent. */
  function ParseSearchPath(p: string): Option<(string, string, string)> {
    match StripPrefix(p, "//")
    case None => None
    case Some(rest) =>
      match SplitAtFirst(rest, '/')
      case None => None
      case Some((host, afterHost)) =>
        match SplitAtFirst(afterHost, '/')
        case None => None
        case Some((index, afterIndex)) =>
          if afterIndex == "_search" then Some((host, index, ""))
          else
            match SplitAtFirst(afterIndex, '/')
            case None => None
            case Some((docType, tail)) =>
              if docType != "" && tail == "_search" then Some((host, index, docType)) else None
  }

  /** With single-segment host, index and type, the search path determines all three, an empty type included. */
  lemma SearchPathRoundTrip(host: string, index: string, docType: string)
    requires '/' !in host && '/' !in index && '/' !in docType
    ensures ParseSearchPath(BuildSearchPath(host, index, docType)) == Some((host, index, docType))
  {
    var topicPart := if docType != "" then docType + "/" else "";
    var afterIndex := topicPart + "_search";
    var afterHost := index + "/" + afterIndex;
    var rest := host + "/" + afterHost;
    assert BuildSearchPath(host, index, docType) == "//" + rest;
    StripPrefixOfConcat("//", rest);
    assert rest == host + ['/'] + afterHost;
    SplitAtFirstOfConcat(host, '/', afterHost);
    assert afterHost == index + ['/'] + afterIndex;
    SplitAtFirstOfConcat(index, '/', afterIndex);
    if docType != "" {
      assert afterIndex == docType + ['/'] + "_search";
      assert |afterIndex| > |"_search"|;
      SplitAtFirstOfConcat(docType, '/', "_search");
    } else {
      assert afterIndex == "_search";
    }
  }

  /** The target of a raw search: the search path under the plain-HTTP scheme. */
  function SearchTarget(c: Client, req: SearchRequest): (t: string)
    ensures StartsWith(t, "http://") && EndsWith(t, "/_search")
  {
    var t := "http:" + BuildSearchPath(c.host, req.index, req.docType);
    assert t[..7] == "http://";
    assert t[|t| - 8..] == "/_search";
    t
  }

  /**
   * The raw-search target is the search path of the client's host and the request's
   * index and type under `http:`, so it reads back to exactly those three.
   */
  lemma SearchTargetRoundTrip(c: Client, req: SearchRequest)
    requires '/' !in c.host && '/' !in req.index && '/' !in req.docType
    ensures StripPrefix(SearchTarget(c, req), "http:") == Some(BuildSearchPath(c.host, req.index, req.docType))
    ensures ParseSearchPath(BuildSearchPath(c.host, req.index, req.docType)) == Some((c.host, req.index, req.docType))
  {
    StripPrefixOfConcat("http:", BuildSearchPath(c.host, req.index, req.docType));
    SearchPathRoundTrip(c.host, req.index, req.docType);
  }

  /** A POST of the caller's body, byte for byte, to the search target. */
  function BuildSearchRequest(c: Client, req: SearchRequest, parseUrl: UrlParser): (r: Result<Request>)
    ensures r.Err? <==> parseUrl(SearchTarget(c, req)).Err?
    ensures r.Err? ==> r.error == parseUrl(SearchTarget(c, req)).error
    ensures r.Ok? ==> && r.value.verb == "POST"
                      && r.value.url == parseUrl(SearchTarget(c, req)).value
                      && r.value.host == r.value.url.host
                      && r.value.body == Some(req.body)
                      && r.value.contentLength == 0
  {
    // The body reader is wrapped, so Go cannot learn its length in advance.
    NewRequest("POST", SearchTarget(c, req), Some(req.body), false, parseUrl)
  }

  predicate IsErrorStatus(status: int) {
    400 <= status <= 599
  }

  /**
   * The decision after a search round trip: an unreadable body or a 4xx/5xx status is
   * an error carrying the body; a body that decodes but reports an engine error is an
   * error carrying that text, whatever the status; only then are the results returned.
   */
  function ClassifySearchResponse(response: Response, decode: Decoder<SearchResults>): (r: Result<SearchResults>)
    ensures IsErrorStatus(response.status) || response.readError.Some? ==> r == Err(Error(response.body))
    ensures !IsErrorStatus(response.status) && response.readError.None? && decode(response.body).Err? ==>
              r == Err(decode(response.body).error)
    ensures !IsErrorStatus(response.status) && response.readError.None? && decode(response.body).Ok?
            && decode(response.body).value.error != "" ==>
              r == Err(Error(decode(response.body).value.error))
    ensures r.Ok? <==> && !IsErrorStatus(response.status) && response.readError.None?
                       && decode(response.body).Ok? && decode(response.body).value.error == ""
    ensures r.Ok? ==> r == decode(response.body) && r.value.error == ""
  {
    if response.readError.Some? || IsErrorStatus(response.status) then Err(Error(response.body))
    else
      match decode(response.body)
      case Err(e) => Err(e)
      case Ok(results) =>
        if results.error != "" then Err(Error(results.error)) else Ok(results)
  }

  /**
   * Build, send once, classify. A request that cannot be built is never sent; a
   * successful result never carries an engine error and never comes from a 4xx/5xx status.
   */
  function Search(c: Client, req: SearchRequest, parseUrl: UrlParser, roundTrip: RoundTrip, decode: Decoder<SearchResults>)
    : (call: Call<SearchResults>)
    ensures BuildSearchRequest(c, req, parseUrl).Err? ==>
              call == Call(Err(BuildSearchRequest(c, req, parseUrl).error), [])
    ensures BuildSearchRequest(c, req, parseUrl).Ok? ==>
              var httpReq := BuildSearchRequest(c, req, parseUrl).value;
              && call.sent == [httpReq]
              && (roundTrip(httpReq).Err? ==> call.result == Err(roundTrip(httpReq).error))
              && (roundTrip(httpReq).Ok? ==> call.result == ClassifySearchResponse(roundTrip(httpReq).value, decode))
    ensures call.result.Ok? ==> && |call.sent| == 1 && roundTrip(call.sent[0]).Ok?
                                && !IsErrorStatus(roundTrip(call.sent[0]).value.status)
                                && call.result.value.error == ""
  {
    match BuildSearchRequest(c, req, parseUrl)
    case Err(e) => Call(Err(e), [])
    case Ok(httpReq) =>
      match roundTrip(httpReq)
      case Err(e) => Call(Err(e), [httpReq])
      case Ok(response) => Call(ClassifySearchResponse(response, decode), [httpReq])
  }

  // ---------------------------------------------------------------------------
  // Keyword search

  const MatchAllClause := "\"query\": { \"match_all\": {} }"

  /** The text before the keywords in the multi-field OR clause. */
  const MultiMatchOpen := "\"query\": { multi_match: { _all: { query: \""

  /** The text after the keywords: the OR operator and the fixed fields title, description, displayUrl, metaKeywords. */
  const MultiMatchClose :=
    "\", operator: \"or\", type: \"cross_fields\", fields: [\"title\", \"description\", \"displayUrl\", \"metaKeywords\"] } } }"

  function SizeClause(count: Int64): string {
    if count > 0 then ", size: " + Decimal(count) else ""
  }

  function MatchClause(keywords: string): string {
    if keywords != "" then MultiMatchOpen + keywords + MultiMatchClose else MatchAllClause
  }

  /**
   * The keyword-search body, built as text: `from`, then `size` only for a positive
   * count, then match-all for empty keywords or the multi-field clause with the
   * keywords inserted verbatim (unquoted keys, no escaping).
   */
  function SimpleSearchBody(req: SimpleSearchRequest): (body: string)
    ensures StartsWith(body, "{ from: " + Decimal(req.skip) + ", ")
    ensures EndsWith(body, MatchClause(req.keywords) + " }")
  {
    var head := "{ from: " + Decimal(req.skip);
    var tail := MatchClause(req.keywords) + " }";
    var sc := SizeClause(req.count);
    assert sc == "" || StartsWith(sc, ", ");
    BodyShape(head, sc, tail);
    head + sc + ", " + tail
  }

  /** Where the optional size clause sits in the body; the match clause stays abstract to keep the proof small. */
  lemma BodyShape(head: string, sc: string, tail: string)
    requires sc == "" || StartsWith(sc, ", ")
    ensures StartsWith(head + sc + ", " + tail, head + ", ")
    ensures EndsWith(head + sc + ", " + tail, tail)
  {
    var b := head + sc + ", " + tail;
    assert b[|b| - |tail|..] == tail;
    assert b[..|head| + 2] == head + ", ";
  }

  /** What a keyword-search body asks for. */
  datatype SimpleQuery = SimpleQuery(from: int, size: Option<int>, keywords: string)

  function ParseSizeClause(s: string): Option<(Option<int>, string)> {
    if StartsWith(s, ", size: ") then
      match ParseDecimalPrefix(s[8..])
      case None => None
      case Some((n, k)) => Some((Some(n), s[8..][k..]))
    else Some((None, s))
  }

  function ParseMatchClause(m: string): Option<string> {
    if m == MatchAllClause then Some("")
    else
      match StripPrefix(m, MultiMatchOpen)
      case None => None
      case Some(rest) =>
        match StripSuffix(rest, MultiMatchClose)
        case None => None
        case Some(keywords) => if keywords == "" then None else Some(keywords)
  }

  /** Reads `, <match clause> }`, the end of a keyword-search body. */
  function ParseQueryClause(s: string): Option<string> {
    match StripPrefix(s, ", ")
    case None => None
    case Some(s1) =>
      match StripSuffix(s1, " }")
      case None => None
      case Some(m) => ParseMatchClause(m)
  }

  /** Reads what follows `{ from: `: the offset, the optional size, the match clause. */
  function ParseFromClause(s: string): Option<SimpleQuery> {
    match ParseDecimalPrefix(s)
    case None => None
    case Some((from, k)) =>
      match ParseSizeClause(s[k..])
      case None => None
      case Some((size, rest)) =>
        match ParseQueryClause(rest)
        case None => None
        case Some(keywords) => Some(SimpleQuery(from, size, keywords))
  }

  /** Reads a keyword-search body back into what it asks for. */
  function ParseSimpleSearchBody(body: string): Option<SimpleQuery> {
    match StripPrefix(body, "{ from: ")
    case None => None
    case Some(s) => ParseFromClause(s)
  }

  lemma MatchClauseRoundTrip(keywords: string)
    ensures ParseMatchClause(MatchClause(keywords)) == Some(keywords)
    ensures 0 < |MatchClause(keywords)| && MatchClause(keywords)[0] == '"'
  {
    if keywords != "" {
      var m := MatchClause(keywords);
      assert m[11] == 'm' != MatchAllClause[11];
      assert m == MultiMatchOpen + (keywords + MultiMatchClose);
      StripPrefixOfConcat(MultiMatchOpen, keywords + MultiMatchClose);
      StripSuffixOfConcat(keywords, MultiMatchClose);
    }
  }

  lemma SizeClauseRoundTrip(count: Int64, rest: string)
    requires StartsWith(rest, ", \"")
    ensures ParseSizeClause(SizeClause(count) + rest)
         == Some((if count > 0 then Some(count as int) else None, rest))
  {
    var s := SizeClause(count) + rest;
    if count > 0 {
      assert s[..8] == ", size: ";
      assert s[8..] == Decimal(count) + rest;
      DecimalRoundTrip(count, rest);
      assert s[8..][|Decimal(count)|..] == rest;
    } else {
      assert s == rest;
      assert s[2] != ", size: "[2];
    }
  }

  lemma QuotedClauseStart(m: string, end: string)
    requires 0 < |m| && m[0] == '"'
    ensures StartsWith(", " + m + end, ", \"")
  {
    assert (", " + m + end)[..3] == ", " + [m[0]];
  }

  lemma QueryClauseRoundTrip(m: string, keywords: string)
    requires ParseMatchClause(m) == Some(keywords)
    ensures ParseQueryClause(", " + m + " }") == Some(keywords)
  {
    assert ", " + m + " }" == ", " + (m + " }");
    StripPrefixOfConcat(", ", m + " }");
    StripSuffixOfConcat(m, " }");
  }

  lemma FromClauseRoundTrip(skip: Int64, count: Int64, rest: string, keywords: string)
    requires StartsWith(rest, ", \"") && ParseQueryClause(rest) == Some(keywords)
    ensures ParseFromClause(Decimal(skip) + (SizeClause(count) + rest))
         == Some(SimpleQuery(skip, if count > 0 then Some(count as int) else None, keywords))
  {
    var tail := SizeClause(count) + rest;
    assert tail[0] == ',';
    DecimalRoundTrip(skip, tail);
    assert (Decimal(skip) + tail)[|Decimal(skip)|..] == tail;
    SizeClauseRoundTrip(count, rest);
  }

  /**
   * Reading the body back recovers the offset, the page size exactly when the count is
   * positive, and the keywords exactly as given (match-all standing for none).
   */
  lemma SimpleSearchBodyRoundTrip(req: SimpleSearchRequest)
    ensures ParseSimpleSearchBody(SimpleSearchBody(req))
         == Some(SimpleQuery(req.skip, if req.count > 0 then Some(req.count as int) else None, req.keywords))
  {
    var m := MatchClause(req.keywords);
    MatchClauseRoundTrip(req.keywords);
    var rest := ", " + m + " }";
    QueryClauseRoundTrip(m, req.keywords);
    QuotedClauseStart(m, " }");
    FromClauseRoundTrip(req.skip, req.count, rest, req.keywords);
    var s := Decimal(req.skip) + (SizeClause(req.count) + rest);
    ConcatAssociates("{ from: ", Decimal(req.skip), SizeClause(req.count), ", ", m + " }");
    StripPrefixOfConcat("{ from: ", s);
  }

  /** `http://<host>/<index>/<type>/_search`, the type segment written even when empty. */
  function SimpleSearchUrl(c: Client, req: SimpleSearchRequest): string {
    "http://" + c.host + "/" + req.index + "/" + req.docType + "/_search"
  }

  /**
   * The keyword search targets the same URL as a raw search when a type is given;
   * with an empty type it leaves an empty segment (`//_search`) where the raw search does not.
   */
  lemma SimpleSearchUrlVersusSearchPath(c: Client, req: SimpleSearchRequest)
    ensures req.docType != "" ==> SimpleSearchUrl(c, req) == "http:" + BuildSearchPath(c.host, req.index, req.docType)
    ensures req.docType == "" ==> && SimpleSearchUrl(c, req) != "http:" + BuildSearchPath(c.host, req.index, req.docType)
                                  && EndsWith(SimpleSearchUrl(c, req), "//_search")
                                  && StartsWith(SimpleSearchUrl(c, req), "http://" + c.host + "/" + req.index + "/")
                                  && |SimpleSearchUrl(c, req)| == |c.host| + |req.index| + 17
  {
    var u := SimpleSearchUrl(c, req);
    if req.docType == "" {
      assert |u| == |"http:" + BuildSearchPath(c.host, req.index, req.docType)| + 1;
      assert u[|u| - 9..] == "//_search";
      assert u[..|c.host| + |req.index| + 9] == "http://" + c.host + "/" + req.index + "/";
    }
  }

  /** `http.Post(url, "application/json", body)`: a JSON POST whose length is known. */
  function BuildSimpleSearchRequest(c: Client, req: SimpleSearchRequest, parseUrl: UrlParser): (r: Result<Request>)
    ensures r.Err? <==> parseUrl(SimpleSearchUrl(c, req)).Err?
    ensures r.Err? ==> r.error == parseUrl(SimpleSearchUrl(c, req)).error
    ensures r.Ok? ==> && r.value.verb == "POST"
                      && r.value.url == parseUrl(SimpleSearchUrl(c, req)).value
                      && r.value.host == r.value.url.host
                      && r.value.body == Some(SimpleSearchBody(req))
                      && r.value.contentLength == |SimpleSearchBody(req)|
                      && r.value.contentType == Some("application/json")
  {
    match NewRequest("POST", SimpleSearchUrl(c, req), Some(SimpleSearchBody(req)), true, parseUrl)
    case Err(e) => Err(e)
    case Ok(post) => Ok(post.(contentType := Some("application/json")))
  }

  /**
   * `json.NewDecoder(resp.Body).Decode`: it reads the response stream itself, so it sees
   * both the bytes read and the error that ended the read. It returns what it filled in
   * and the error that stopped it, if any.
   */
  type StreamDecoder<T> = Response -> (T, Option<Error>)

  /** A keyword search returns the results and an error side by side, as Go's pair does. */
  datatype SimpleSearchOutcome = SimpleSearchOutcome(results: Option<SearchResults>, err: Option<Error>, sent: seq<Request>)

  /**
   * Post the keyword body once and decode the reply. Unlike Search, neither the status
   * nor the decoded engine error is consulted: whatever decoded is returned, next to
   * the decoder's own error.
   */
  function SimpleSearch(c: Client, req: SimpleSearchRequest, parseUrl: UrlParser, roundTrip: RoundTrip,
                        decode: StreamDecoder<SearchResults>)
    : (out: SimpleSearchOutcome)
    ensures BuildSimpleSearchRequest(c, req, parseUrl).Err? ==>
              out == SimpleSearchOutcome(None, Some(BuildSimpleSearchRequest(c, req, parseUrl).error), [])
    ensures BuildSimpleSearchRequest(c, req, parseUrl).Ok? ==>
              var post := BuildSimpleSearchRequest(c, req, parseUrl).value;
              && out.sent == [post]
              && (roundTrip(post).Err? ==> out.results.None? && out.err == Some(roundTrip(post).error))
              && (roundTrip(post).Ok? ==> out.results == Some(decode(roundTrip(post).value).0)
                                          && out.err == decode(roundTrip(post).value).1)
  {
    match BuildSimpleSearchRequest(c, req, parseUrl)
    case Err(e) => SimpleSearchOutcome(None, Some(e), [])
    case Ok(post) =>
      match roundTrip(post)
      case Err(e) => SimpleSearchOutcome(None, Some(e), [post])
      case Ok(response) =>
        var (results, err) := decode(response);
        SimpleSearchOutcome(Some(results), err, [post])
  }
}

=== FILE: strings.dfy ===
/** String helpers: prefixes, splitting at a separator, and Go's `%d` rendering with its inverse. */
module Strings {
  import opened Wrappers

  predicate StartsWith(s: string, prefix: string) {
    |prefix| <= |s| && s[..|prefix|] == prefix
  }

  predicate EndsWith(s: string, suffix: string) {
    |suffix| <= |s| && s[|s| - |suffix|..] == suffix
  }

  function StripPrefix(s: string, prefix: string): (r: Option<string>)
    ensures r.Some? <==> StartsWith(s, prefix)
    ensures r.Some? ==> s == prefix + r.value
  {
    if StartsWith(s, prefix) then Some(s[|prefix|..]) else None
  }

  function StripSuffix(s: string, suffix: string): (r: Option<string>)
    ensures r.Some? <==> EndsWith(s, suffix)
    ensures r.Some? ==> s == r.value + suffix
  {
    if EndsWith(s, suffix) then Some(s[..|s| - |suffix|]) else None
  }

  lemma StripPrefixOfConcat(prefix: string, rest: string)
    ensures StripPrefix(prefix + rest, prefix) == Some(rest)
  {
    assert (prefix + rest)[..|prefix|] == prefix;
    assert (prefix + rest)[|prefix|..] == rest;
  }

  lemma StripSuffixOfConcat(rest: string, suffix: string)
    ensures StripSuffix(rest + suffix, suffix) == Some(rest)
  {
    var s := rest + suffix;
    assert s[|s| - |suffix|..] == suffix;
    assert s[..|s| - |suffix|] == rest;
  }

  lemma ConcatAssociates(a: string, b: string, c: string, d: string, e: string)
    ensures a + b + c + d + e == a + (b + (c + (d + e)))
  {
  }

  /** Position of the first occurrence of `c` in `s`. */
  function IndexOf(s: string, c: char): (r: Option<nat>)
    ensures r.None? <==> c !in s
    ensures r.Some? ==> r.value < |s| && s[r.value] == c && c !in s[..r.value]
  {
    if |s| == 0 then None
    else if s[0] == c then Some(0)
    else
      match IndexOf(s[1..], c)
      case None => None
      case Some(i) =>
        assert s[..i + 1] == [s[0]] + s[1..][..i];
        Some(i + 1)
  }

  /** Splits `s` at the first `c`: the part before it and the part after it. */
  function SplitAtFirst(s: string, c: char): (r: Option<(string, string)>)
    ensures r.None? <==> c !in s
    ensures r.Some? ==> s == r.value.0 + [c] + r.value.1 && c !in r.value.0
  {
    match IndexOf(s, c)
    case None => None
    case Some(i) =>
      assert s == s[..i] + [c] + s[i + 1..];
      Some((s[..i], s[i + 1..]))
  }

  /** Splitting at the first separator recovers the parts when the first part has none. */
  lemma SplitAtFirstOfConcat(a: string, c: char, b: string)
    requires c !in a
    ensures SplitAtFirst(a + [c] + b, c) == Some((a, b))
  {
    var s := a + [c] + b;
    assert s[|a|] == c;
    var r := SplitAtFirst(s, c);
    var a', b' := r.value.0, r.value.1;
    assert a' == s[..|a|] == a;
    assert b' == s[|a| + 1..] == b;
  }

  predicate IsDigit(c: char) {
    '0' <= c <= '9'
  }

  predicate AllDigits(s: string) {
    forall i :: 0 <= i < |s| ==> IsDigit(s[i])
  }

  function DigitChar(d: nat): (c: char)
    requires d < 10
    ensures IsDigit(c) && c as int - '0' as int == d
  {
    ('0' as int + d) as char
  }

  /** Decimal digits of `n`, most significant first, without leading zeros. */
  function NatDigits(n: nat): (r: string)
    ensures 1 <= |r| && AllDigits(r)
    decreases n
  {
    if n < 10 then [DigitChar(n)] else NatDigits(n / 10) + [DigitChar(n % 10)]
  }

  /** Go's `%d` rendering of an integer: a minus sign for negatives, then the digits. */
  function Decimal(n: int): (r: string)
    ensures 1 <= |r|
  {
    if n < 0 then "-" + NatDigits(-n) else NatDigits(n)
  }

  /** The number a string of digits denotes. */
  function DigitsValue(ds: string): nat
    requires AllDigits(ds)
  {
    if |ds| == 0 then 0
    else DigitsValue(ds[..|ds| - 1]) * 10 + (ds[|ds| - 1] as int - '0' as int)
  }

  /** Length of the longest run of digits at the start of `s`. */
  function DigitRun(s: string): (k: nat)
    ensures k <= |s|
    ensures AllDigits(s[..k])
    ensures k < |s| ==> !IsDigit(s[k])
  {
    if |s| == 0 || !IsDigit(s[0]) then 0
    else
      var k := DigitRun(s[1..]);
      assert s[..1 + k] == [s[0]] + s[1..][..k];
      1 + k
  }

  /** Reads the run of digits at the start of `s`: its value and its length. */
  function ParseUnsignedPrefix(s: string): (r: Option<(nat, nat)>)
    ensures r.Some? ==> 0 < r.value.1 <= |s|
  {
    var k := DigitRun(s);
    if k == 0 then None else Some((DigitsValue(s[..k]), k))
  }

  /** Reads an optionally signed decimal at the start of `s`: its value and how many characters it spans. */
  function ParseDecimalPrefix(s: string): (r: Option<(int, nat)>)
    ensures r.Some? ==> 0 < r.value.1 <= |s|
  {
    if 0 < |s| && s[0] == '-' then
      match ParseUnsignedPrefix(s[1..])
      case None => None
      case Some((v, k)) => Some((0 - v as int, k + 1))
    else
      match ParseUnsignedPrefix(s)
      case None => None
      case Some((v, k)) => Some((v as int, k))
  }

  lemma {:induction false} NatDigitsValue(n: nat)
    ensures DigitsValue(NatDigits(n)) == n
    decreases n
  {
    var ds := NatDigits(n);
    if n >= 10 {
      assert ds[..|ds| - 1] == NatDigits(n / 10);
      NatDigitsValue(n / 10);
    }
  }

  lemma {:induction false} DigitRunOfDigits(ds: string, rest: string)
    requires AllDigits(ds)
    requires |rest| == 0 || !IsDigit(rest[0])
    ensures DigitRun(ds + rest) == |ds|
    decreases |ds|
  {
    if |ds| > 0 {
      assert (ds + rest)[1..] == ds[1..] + rest;
      DigitRunOfDigits(ds[1..], rest);
    } else {
      assert ds + rest == rest;
    }
  }

  lemma UnsignedRoundTrip(n: nat, rest: string)
    requires |rest| == 0 || !IsDigit(rest[0])
    ensures ParseUnsignedPrefix(NatDigits(n) + rest) == Some((n, |NatDigits(n)|))
  {
    var ds := NatDigits(n);
    DigitRunOfDigits(ds, rest);
    assert (ds + rest)[..|ds|] == ds;
    NatDigitsValue(n);
  }

  lemma NegativeRoundTrip(m: nat, rest: string)
    requires |rest| == 0 || !IsDigit(rest[0])
    ensures ParseDecimalPrefix("-" + NatDigits(m) + rest) == Some((0 - m, 1 + |NatDigits(m)|))
  {
    var s := "-" + NatDigits(m) + rest;
    assert s[1..] == NatDigits(m) + rest;
    UnsignedRoundTrip(m, rest);
  }

  lemma NonNegativeRoundTrip(n: nat, rest: string)
    requires |rest| == 0 || !IsDigit(rest[0])
    ensures ParseDecimalPrefix(NatDigits(n) + rest) == Some((n as int, |NatDigits(n)|))
  {
    assert (NatDigits(n) + rest)[0] == NatDigits(n)[0];
    UnsignedRoundTrip(n, rest);
  }

  /** Reading back a rendered decimal yields the number and stops exactly where the rendering ends. */
  lemma DecimalRoundTrip(n: int, rest: string)
    requires |rest| == 0 || !IsDigit(rest[0])
    ensures ParseDecimalPrefix(Decimal(n) + rest) == Some((n, |Decimal(n)|))
  {
    if n < 0 {
      NegativeRoundTrip(-n, rest);
    } else {
      NonNegativeRoundTrip(n, rest);
    }
  }
}

=== FILE: wrappers.dfy ===
/** Failure-carrying values shared by every operation of the client. */
module Wrappers {

  /** A Go `error`; only its message is observable. */
  datatype Error = Error(message: string)

  datatype Option<+T> = None | Some(value: T)

  /** A Go `(T, error)` return where exactly one side is meaningful. */
  datatype Result<+T> = Ok(value: T) | Err(error: Error)
}
